=== FILE: README.md ===
# Pokedex owner registry — a Dafny model

`ex7.py` is a console program that keeps a registry of Pokemon owners in a binary
search tree. Every node holds an owner's name and pokedex, a list of catalog
records. Nodes are ordered by the lower-cased owner name. Ties go to the right
subtree: a node's left subtree holds names strictly below its own, and its right
subtree holds names equal or above.

This project models the registry core:
- creating nodes, insertion, lookup and deletion, with the two-child successor splice;
- the three depth-first traversals and the queue-based breadth-first traversal;
- the "sort owners" rebuild: gather copies, bubble-sort them by (pokedex size, lower-cased name), then make the first the root and insert the rest;
- the 1-based catalog lookup;
- the global registry root with the guarded updates the menus perform.

Layout:
- `wrappers.dfy`: `Option`.
- `collections.dfy`: sequence and multiset identities over any element type.
- `names.dfy`: lower-casing and Python's string order, proved a strict total order.
- `catalog.dfy`: catalog records and `get_poke_dict_by_id`.
- `owner_bst.dfy`: the tree, insertion, lookup, removal and deletion.
- `traversals.dfy`: the traversals, and the breadth-first loop with its queue.
- `sort_owners.dfy`: gathering, the in-place bubble sort over an `array`, and the rebuild.
- `registry.dfy`: the class holding `ownerRoot`.

The Python nodes are dictionaries whose links are overwritten in place. Here a
tree is a value (`Tree = Nil | Node(owner, left, right)`), and each update is a
function that returns the updated tree. The loops keep their form as methods, each
proved equal to, or to satisfy, the function that specifies it:
- the `cur`/`prev` walk of the removal;
- the breadth-first queue;
- the recursive gathering;
- the nested bubble-sort loops on an array;
- the re-insertion loop.

## Model

| member | source | states |
|---|---|---|
| Names.LowerChar | ex7.py:82 | an ASCII capital maps to its small letter (code point plus 32); every other character is unchanged |
| Names.Lower | ex7.py:82 | `str.lower()` keeps the length and leaves no upper-case letter; `LowerPointwise` states that each character becomes its own lower-case form |
| Names.LowerPointwise | ex7.py:82 | every character of the lower-cased name is the lower-case form (`LowerChar`) of the character in the same place |
| Names.SameKeyIffSameUpToCase | ex7.py:98 | two names fold to the same key if and only if they have the same length and agree position by position up to case, so "Ash" and "ASH" are one owner |
| Names.LowerIdempotent | ex7.py:82 | lower-casing twice is lower-casing once |
| Names.StrLess | ex7.py:100-102 | Python's `<` on strings: a proper prefix is below the longer string, and no string is below one of its own prefixes |
| Names.StrLessFirstDifference | ex7.py:100-102 | at the first position where two names differ, the smaller character decides Python's `<`, so the order is lexicographic on code points |
| Names.StrLessIrreflexive | ex7.py:82 | no name is below itself under Python's `<` |
| Names.StrLessAsymmetric | ex7.py:129-133 | `a < b` and `b < a` never both hold |
| Names.StrLessTransitive | ex7.py:83-91 | Python's string `<` is transitive |
| Names.StrLessTotal | ex7.py:98-103 | two different names are ordered one way or the other, so the lookup's fall-through never happens |
| Catalog.GetPokeDictById | ex7.py:55-58 | a record is returned exactly when 0 < id <= catalog length, and it is the record at 1-based position id |
| Catalog.LookupOwnId | ex7.py:55-58 | in a catalog numbered 1..n in load order, looking up a record's own id returns that record |
| Catalog.LookupHasId | ex7.py:55-58 | in such a catalog, a successful lookup returns the record carrying the requested id |
| OwnerBst.Key | ex7.py:82 | an owner's search key, its lower-cased name: same length as the name, with no upper-case letter left |
| OwnerBst.CreateOwnerNode | ex7.py:75-77 | a child-less node holding exactly the given name and pokedex, a one-node search tree |
| OwnerBst.Insert | ex7.py:81-91 | the root keeps its record, and the records are the old ones plus the new node's, one more entry |
| OwnerBst.InsertGrafts | ex7.py:81-91 | the new node is hung on exactly one previously empty link, and every existing node keeps its record and its other links |
| OwnerBst.InsertTieGoesRight | ex7.py:83-91 | a new owner whose lower-cased name equals the root's goes into the right subtree, and the left subtree is untouched |
| OwnerBst.InsertPreservesBst | ex7.py:81-91 | inserting a fresh node into a search tree gives a search tree |
| OwnerBst.Find | ex7.py:95-103 | nothing is found in an empty tree, and a found node has the query's lower-cased name and is in the tree |
| OwnerBst.FindComplete | ex7.py:95-103 | on a search tree a name is found exactly when some owner has that lower-cased name |
| OwnerBst.FindReturnsTheOwner | ex7.py:95-103 | with unique names, lookup returns the owner carrying the name |
| OwnerBst.FindAfterAdding | ex7.py:95-103 | two search trees differing by one added record agree on every lookup except the added name |
| OwnerBst.InsertThenFind | ex7.py:81-103 | after insertion a name is found exactly when it was found before or it is the new owner's name |
| OwnerBst.InsertKeepsKeysUnique | ex7.py:153-166 | inserting a name that lookup did not find keeps names unique |
| OwnerBst.RemoveLeftmost | ex7.py:120-123 | the splice that links the successor's parent to the successor's right child removes exactly one node and adds none; `RemoveLeftmostEntries` states which record goes |
| OwnerBst.Leftmost | ex7.py:113-117 | the node where the `cur` walk stops holds a record of the subtree |
| OwnerBst.LeftmostIsMinimum | ex7.py:113-117 | on a search tree that record has the smallest lower-cased name |
| OwnerBst.RemoveLeftmostEntries | ex7.py:120-123 | the splice through `prev` loses exactly the leftmost record |
| OwnerBst.RemoveLeftmostPreservesBst | ex7.py:120-123 | the splice keeps a search tree |
| OwnerBst.Remove | ex7.py:107-124 | a node missing its left child is replaced by its right child and vice versa; in every case exactly the removed node's record is lost and every other record is kept |
| OwnerBst.RemovePreservesBst | ex7.py:107-124 | removal, including the successor copy, keeps a search tree |
| OwnerBst.RemoveOwner | ex7.py:107-124 | the `cur`/`prev` loop and its splice compute exactly `Remove`; the loop finds the successor, and the deep splice through `prev` is stated by the function `RemoveLeftmost` |
| OwnerBst.Delete | ex7.py:128-135 | for a name that is present, exactly the record lookup finds is deleted, and every other record stays |
| OwnerBst.DeletePreservesBst | ex7.py:128-135 | deletion keeps a search tree |
| OwnerBst.DeleteForgetsName | ex7.py:128-135 | with unique names, the deleted name is no longer found |
| OwnerBst.DeleteKeepsOthers | ex7.py:128-135 | with unique names, every other name is found exactly as before and with the same record |
| OwnerBst.DeleteOnlyOwner | ex7.py:128-135 | deleting the only owner leaves an empty registry |
| Traversals.PreOrder | ex7.py:187-192 | node, left subtree, right subtree: one entry per node, the root first; `PreOrderVisitsAll` states that every record is visited exactly once |
| Traversals.InOrder | ex7.py:195-200 | left subtree, node, right subtree: one entry per node, the leftmost record first; `InOrderVisitsAll` and `InOrderSorted` state the contents and the order |
| Traversals.PostOrder | ex7.py:203-208 | left subtree, right subtree, node: one entry per node, the root last; `PostOrderVisitsAll` states that every record is visited exactly once |
| Traversals.PreOrderVisitsAll | ex7.py:187-192 | pre-order visits every node exactly once |
| Traversals.InOrderVisitsAll | ex7.py:195-200 | in-order visits every node exactly once |
| Traversals.PostOrderVisitsAll | ex7.py:203-208 | post-order visits every node exactly once |
| Traversals.InOrderSorted | ex7.py:195-200 | on a search tree, in-order lists lower-cased names in non-decreasing order |
| Traversals.LeftmostIsFirstInOrder | ex7.py:113-117 | the node the `cur` walk reaches is the first in order |
| Traversals.RemoveLeftmostInOrder | ex7.py:120-123 | the splice drops the first record of the in-order listing and keeps the rest in order |
| Traversals.RemoveInOrder | ex7.py:107-124 | after removal the in-order listing is the old one with the removed record cut out |
| Traversals.InOrderSuccessor | ex7.py:112-117 | the leftmost record of the right subtree is the removed node's in-order successor |
| Traversals.RemovePromotesSuccessor | ex7.py:112-124 | with two children, the node takes its in-order successor's record and keeps its left subtree |
| Traversals.Children | ex7.py:180-183 | the links a visited node appends: exactly one per non-empty child, the left before the right |
| Traversals.BfsAdvance | ex7.py:178-184 | one iteration keeps the queue invariant and shrinks the records still pending |
| Traversals.BfsTraversal | ex7.py:175-184 | starting from a node, the loop ends having visited every record exactly once, the root first |
| Traversals.BfsTraversalAsWritten | ex7.py:175-184 | on an empty registry the first visit fails, and otherwise every record is visited exactly once |
| Traversals.PrintAllBfs | ex7.py:304-305 | every record visited exactly once for every root, with nothing visited on an empty registry |
| SortOwners.SizeGreater | ex7.py:282-284 | the swap test: a different pokedex size decides by size alone, and so does an equal folded name; at equal size the later folded name is the greater |
| SortOwners.SizeGreaterAsymmetric | ex7.py:282-284 | the swap test never holds both ways |
| SortOwners.NotSizeGreaterTransitive | ex7.py:282-284 | "not greater" is transitive, so neighbour order gives order everywhere |
| SortOwners.SizeGreaterTotal | ex7.py:282-284 | between owners with different lower-cased names the swap test holds one way or the other |
| SortOwners.SortedHeadsAgree | ex7.py:280-285 | two sorted arrangements of the same records with unique names start with the same record |
| SortOwners.SortedPermutationUnique | ex7.py:280-285 | with unique names only one arrangement is sorted, so the sort's result does not depend on the gathering order |
| SortOwners.GatherAllOwners | ex7.py:264-269 | the list becomes the old list followed by the tree's pre-order, which adds every record exactly once |
| SortOwners.SwapStep | ex7.py:281-285 | swapping an out-of-order pair keeps the sorted tail and the partition, moves the larger record right, and permutes |
| SortOwners.KeepStep | ex7.py:281-285 | an in-order pair moves the running maximum one step right |
| SortOwners.BubblePass | ex7.py:281-285 | one inner pass permutes the array and adds the prefix's largest record to the sorted tail |
| SortOwners.BubbleSort | ex7.py:280-285 | the array ends sorted by (pokedex size, lower-cased name) and is a permutation of what it held |
| SortOwners.BuildPrefix | ex7.py:286-291 | the tree after the first `i` records is a node rooted at `arr[0]` |
| SortOwners.BuildPrefixIsBst | ex7.py:286-291 | every intermediate rebuilt tree is a search tree |
| SortOwners.BuildPrefixEntries | ex7.py:286-291 | the tree after the first `i` records holds exactly those records |
| SortOwners.RebuildBySortedOrder | ex7.py:286-291 | the rebuild loop builds a search tree rooted at `arr[0]` holding exactly the array's records |
| SortOwners.SortOwnersByNumPokemon | ex7.py:272-291 | an empty registry stays empty; otherwise the order is a sorted permutation of the records, and the new root is exactly its first record followed by inserting the rest in order (`BuildPrefix`), a search tree with the same records |
| Registry.OwnerRegistry.constructor | ex7.py:5 | the program starts with no owners |
| Registry.OwnerRegistry.OpenPokedex | ex7.py:150-167 | a name lookup did not find is added: the new root is the fresh node on an empty registry and `Insert` of it otherwise; it is then found with its record, and names stay unique |
| Registry.OwnerRegistry.DeletePokedex | ex7.py:138-146 | a name lookup found is deleted: the new root is `Delete` of the old, its record is gone, every other record stays, and the name is no longer found |
| Registry.OwnerRegistry.SortOwners | ex7.py:272-291 | the registry keeps its records and stays a valid search tree, exactly the rebuild (`BuildPrefix`) of the reported sorted order |

## Left out

- Reading the catalog from `hoenn_pokedex.csv` (ex7.py:13-39): file I/O. The catalog is a given sequence of records.
- `read_int_safe`, the menus (`main_menu`, `existing_pokedex`, `display_filter_sub_menu`) and all `print` output: console I/O. A traversal's output is the sequence of visited owner records.
- The menu's lookup-before-insert and lookup-before-delete appear only as preconditions of `OpenPokedex` and `DeletePokedex`.
- Registry.OwnerRegistry.OpenPokedex: takes the new pokedex as a parameter. The starter chosen through `read_int_safe` and `get_poke_dict_by_id(3 * choice - 2)` is not modelled, nor the failing print when that lookup returns `None`.
- The per-owner item operations `add_pokemon_to_owner`, `release_pokemon_by_name` and `evolve_pokemon_by_name` (ex7.py:216-257), and the display filters (ex7.py:323-364). They are input-driven list edits on a single pokedex, not registry logic.
- Names.Lower: folds only the ASCII letters A-Z. Python's `str.lower()` also folds other Unicode letters.
- Identity and aliasing of node dictionaries and pokedex lists (ex7.py:119, ex7.py:267): records are values. The model does not say which Python node object ends up holding which record after the successor copy, only which records the tree holds and where.
- OwnerBst.InsertPreservesBst, OwnerBst.InsertThenFind and OwnerBst.InsertKeepsKeysUnique: assume a child-less new node, as every caller passes one. `Insert` itself, `InsertGrafts` and `InsertTieGoesRight` hold for any node.
- OwnerBst.Delete: requires that lookup finds the name, as its caller `delete_pokedex` checks at ex7.py:141-143. On a missing name the Python recursion would reach `None` and raise. That path is not modelled.
- Traversals.BfsTraversal: requires a non-empty registry, since the loop dereferences `queue[0]`. The empty case is the finding below.
- Traversals.BfsTraversal: does not state the level-by-level order of the visit, only that each record is visited exactly once and the root first.

## Findings

| source | as written | input that shows it | evidently intended | confidence | as-written member | corrected member |
|---|---|---|---|---|---|---|
| ex7.py:298-305, ex7.py:175-179 | "Print all" with choice 1 calls `bfs_traversal(ownerRoot)` with no check for an empty registry. The queue starts as `[None]`, and the first visit dereferences `None`. | An empty registry, main menu 5, then 1 | Nothing is printed, as the three depth-first traversals do on `None` | not executed | Traversals.BfsTraversalAsWritten | Traversals.PrintAllBfs |

=== FILE: catalog.dfy ===
/**
 * The catalog of Hoenn Pokemon, read once from the CSV file into a list of records.
 * Reading the file is not part of this model: the catalog is a given sequence.
 */
module Catalog {
  import opened Wrappers

  /** One catalog row; `canEvolve` keeps the upper-cased text ("TRUE" / "FALSE"). */
  datatype Pokemon = Pokemon(id: int, name: string, kind: string, hp: int, attack: int, canEvolve: string)

  /** Identifiers are 1-based positions in load order. */
  ghost predicate WellNumbered(catalog: seq<Pokemon>)
  {
    forall k :: 0 <= k < |catalog| ==> catalog[k].id == k + 1
  }

  /** `get_poke_dict_by_id`: 1-based lookup with a bounds check. */
  function GetPokeDictById(catalog: seq<Pokemon>, pokeId: int): (r: Option<Pokemon>)
    ensures r.Some? <==> 0 < pokeId <= |catalog|
    ensures r.Some? ==> r.value in catalog && r.value == catalog[pokeId - 1]
  {
    if 0 < pokeId <= |catalog| then Some(catalog[pokeId - 1]) else None
  }

  /** In a well-numbered catalog, looking an item up by its own identifier finds it. */
  lemma LookupOwnId(catalog: seq<Pokemon>, p: Pokemon)
    requires WellNumbered(catalog)
    requires p in catalog
    ensures GetPokeDictById(catalog, p.id) == Some(p)
  {
    var k :| 0 <= k < |catalog| && catalog[k] == p;
    assert p.id == k + 1;
  }

  /** In a well-numbered catalog, a successful lookup returns the item carrying that identifier. */
  lemma LookupHasId(catalog: seq<Pokemon>, pokeId: int)
    requires WellNumbered(catalog)
    requires GetPokeDictById(catalog, pokeId).Some?
    ensures GetPokeDictById(catalog, pokeId).value.id == pokeId
  {
  }
}

=== FILE: collections.dfy ===
/**
 * Sequence and multiset identities stated once for any element type. Proving
 * them about owner records directly makes the solver explore the records'
 * structure; stated generically they are cheap to prove and to use.
 */
module Collections {

  lemma Regroup<T>(a: seq<T>, b: seq<T>, c: seq<T>)
    ensures a + b + c == a + (b + c)
  {
  }

  lemma DropEmpty<T>(a: seq<T>)
    ensures a + [] == a && [] + a == a
  {
  }

  lemma SliceOfAppend<T>(a: seq<T>, b: seq<T>, k: nat)
    requires k <= |a|
    ensures (a + b)[k..] == a[k..] + b
  {
  }

  lemma TakeAll<T>(s: seq<T>)
    ensures s[..|s|] == s
  {
  }

  lemma TailOfAppend<T>(a: seq<T>, b: seq<T>)
    requires |a| > 0
    ensures (a + b)[0] == a[0] && (a + b)[1..] == a[1..] + b
  {
  }

  /** A non-empty sequence is its head followed by its tail, as a multiset too. */
  lemma HeadAndTail<T>(s: seq<T>)
    requires |s| > 0
    ensures s == [s[0]] + s[1..]
    ensures multiset(s[1..]) == multiset(s) - multiset{s[0]}
  {
    assert s == [s[0]] + s[1..];
  }

  /** Taking out an element of the left part of a sum. */
  lemma RemoveFromLeft<T>(a: multiset<T>, b: multiset<T>, x: T)
    requires x in a
    ensures (a - multiset{x}) + b == (a + b) - multiset{x}
  {
  }

  /** Taking out an element of the right part of a sum. */
  lemma RemoveFromRight<T>(a: multiset<T>, b: multiset<T>, x: T)
    requires x in b
    ensures a + (b - multiset{x}) == (a + b) - multiset{x}
  {
  }

  /** Moving an element `m` of `b` next to `a` and dropping `o` from the middle leaves the same sum. */
  lemma Promote<T>(a: multiset<T>, o: T, b: multiset<T>, m: T)
    requires m in b
    ensures a + multiset{m} + (b - multiset{m}) == (a + multiset{o} + b) - multiset{o}
  {
  }

  /** Everything left after taking out one element was there before. */
  lemma RemoveShrinks<T>(a: multiset<T>, x: T)
    ensures a - multiset{x} <= a
    ensures forall y | y in a - multiset{x} :: y in a
  {
  }
}

=== FILE: names.dfy ===
/**
 * Owner names are compared case-insensitively: both sides are lower-cased with
 * `str.lower()` and then compared with Python's string ordering, which is the
 * lexicographic order on code points (a proper prefix comes first).
 */
module Names {

  /** `str.lower()` on one character; only the ASCII letters A-Z are folded. */
  function LowerChar(c: char): (d: char)
    ensures !('A' <= d <= 'Z')
    ensures !('A' <= c <= 'Z') ==> d == c
    ensures 'A' <= c <= 'Z' ==> d as int == c as int + 32
  {
    if 'A' <= c <= 'Z' then (c as int + 32) as char else c
  }

  /** `s.lower()`: every character folded, length kept. */
  function Lower(s: string): (r: string)
    ensures |r| == |s|
    ensures forall i :: 0 <= i < |r| ==> !('A' <= r[i] <= 'Z')
  {
    if s == [] then [] else [LowerChar(s[0])] + Lower(s[1..])
  }

  /** Each character of the folded name is the fold of the character in the same place. */
  lemma {:induction false} LowerPointwise(s: string)
    ensures forall i :: 0 <= i < |s| ==> Lower(s)[i] == LowerChar(s[i])
  {
    if s != [] {
      LowerPointwise(s[1..]);
      assert forall i :: 1 <= i < |s| ==> Lower(s)[i] == Lower(s[1..])[i - 1];
    }
  }

  /**
   * Case-insensitivity of names: two names fold to the same key exactly when
   * they have the same length and agree position by position up to ASCII case
   * (so "Ash" and "ASH" are the same owner).
   */
  lemma {:induction false} SameKeyIffSameUpToCase(s: string, t: string)
    ensures Lower(s) == Lower(t) <==>
      (|s| == |t| && forall i :: 0 <= i < |s| ==> LowerChar(s[i]) == LowerChar(t[i]))
  {
    LowerPointwise(s);
    LowerPointwise(t);
    var ls, lt := Lower(s), Lower(t);
    if ls == lt {
      forall i | 0 <= i < |s|
        ensures LowerChar(s[i]) == LowerChar(t[i])
      {
        assert LowerChar(s[i]) == ls[i] == lt[i] == LowerChar(t[i]);
      }
    } else if |s| == |t| {
      assert |ls| == |lt|;
      var k :| 0 <= k < |ls| && ls[k] != lt[k];
      assert LowerChar(s[k]) != LowerChar(t[k]);
    }
  }

  /** Folding an already folded name changes nothing. */
  lemma {:induction false} LowerIdempotent(s: string)
    ensures Lower(Lower(s)) == Lower(s)
  {
    if s != [] {
      LowerIdempotent(s[1..]);
      assert Lower(s)[1..] == Lower(s[1..]);
    }
  }

  /** Python's `a < b` on strings: a proper prefix comes first, and a string is never below one of its prefixes. */
  predicate StrLess(a: string, b: string): (r: bool)
    ensures a < b ==> r
    ensures b <= a ==> !r
  {
    if |a| == 0 then |b| > 0
    else if |b| == 0 then false
    else if a[0] != b[0] then a[0] < b[0]
    else StrLess(a[1..], b[1..])
  }

  /** The first position where two strings differ decides Python's `<`: lexicographic order on code points. */
  lemma {:induction false} StrLessFirstDifference(a: string, b: string, k: nat)
    requires k < |a| && k < |b| && a[..k] == b[..k] && a[k] != b[k]
    ensures StrLess(a, b) <==> a[k] < b[k]
    decreases k
  {
    if k > 0 {
      assert a[0] == a[..k][0] == b[..k][0] == b[0];
      assert a[1..][..k - 1] == a[..k][1..] == b[..k][1..] == b[1..][..k - 1];
      StrLessFirstDifference(a[1..], b[1..], k - 1);
    }
  }

  lemma {:induction false} StrLessIrreflexive(a: string)
    ensures !StrLess(a, a)
  {
    if |a| > 0 {
      StrLessIrreflexive(a[1..]);
    }
  }

  lemma {:induction false} StrLessAsymmetric(a: string, b: string)
    requires StrLess(a, b)
    ensures !StrLess(b, a)
  {
    if |a| > 0 && |b| > 0 && a[0] == b[0] {
      StrLessAsymmetric(a[1..], b[1..]);
    }
  }

  lemma {:induction false} StrLessTransitive(a: string, b: string, c: string)
    requires StrLess(a, b) && StrLess(b, c)
    ensures StrLess(a, c)
  {
    if |a| > 0 && |b| > 0 && |c| > 0 && a[0] == b[0] && b[0] == c[0] {
      StrLessTransitive(a[1..], b[1..], c[1..]);
    }
  }

  /** Any two different strings are ordered one way or the other. */
  lemma {:induction false} StrLessTotal(a: string, b: string)
    ensures a == b || StrLess(a, b) || StrLess(b, a)
  {
    if |a| > 0 && |b| > 0 && a[0] == b[0] {
      StrLessTotal(a[1..], b[1..]);
      if a[1..] == b[1..] {
        assert a == [a[0]] + a[1..] && b == [b[0]] + b[1..];
      }
    }
  }

  /** `a < b` and `not (c < b)` give `a < c`: used wherever a subtree bound is moved. */
  lemma StrLessBelowNotLess(a: string, b: string, c: string)
    requires StrLess(a, b) && !StrLess(c, b)
    ensures StrLess(a, c)
  {
    StrLessTotal(b, c);
    if StrLess(b, c) {
      StrLessTransitive(a, b, c);
    }
  }
}

=== FILE: owner_bst.dfy ===
/**
 * The owner registry: a binary search tree of owner records keyed by the
 * lower-cased owner name. Ties route right: a node's left subtree holds keys
 * strictly below its own, its right subtree keys equal or above.
 *
 * The Python nodes are dictionaries whose child links are overwritten in place;
 * here a tree is a value and each in-place update is a function returning the
 * updated tree.
 */
module OwnerBst {
  import opened Wrappers
  import opened Names
  import opened Catalog
  import opened Collections

  datatype Owner = Owner(name: string, pokedex: seq<Pokemon>)

  datatype Tree = Nil | Node(owner: Owner, left: Tree, right: Tree)

  /** The search key of an owner: its lower-cased name. */
  function Key(o: Owner): (k: string)
    ensures |k| == |o.name|
    ensures forall i :: 0 <= i < |k| ==> !('A' <= k[i] <= 'Z')
  {
    Lower(o.name)
  }

  /** The multiset of owner records held in a tree, one per node. */
  function Entries(t: Tree): multiset<Owner>
  {
    match t
    case Nil => multiset{}
    case Node(o, l, r) => Entries(l) + multiset{o} + Entries(r)
  }

  /** The search-tree invariant, with ties kept in the right subtree. */
  ghost predicate IsBst(t: Tree)
  {
    match t
    case Nil => true
    case Node(o, l, r) =>
      IsBst(l) && IsBst(r) &&
      (forall x | x in Entries(l) :: StrLess(Key(x), Key(o))) &&
      (forall x | x in Entries(r) :: !StrLess(Key(x), Key(o)))
  }

  /** Some owner in `m` has the folded name `q`. */
  ghost predicate HasKey(m: multiset<Owner>, q: string)
  {
    exists x :: x in m && Key(x) == q
  }

  /** No two owners share a folded name, and no record occurs twice. */
  ghost predicate UniqueKeys(m: multiset<Owner>)
  {
    forall x, y | x in m && y in m && Key(x) == Key(y) :: x == y && m[x] == 1
  }

  /** `create_owner_node`: a fresh node with no children. */
  function CreateOwnerNode(name: string, pokedex: seq<Pokemon>): (t: Tree)
    ensures t.Node? && t.owner.name == name && t.owner.pokedex == pokedex
    ensures Entries(t) == multiset{Owner(name, pokedex)}
    ensures IsBst(t)
  {
    Node(Owner(name, pokedex), Nil, Nil)
  }

  /** `u` is `t` with exactly one empty link replaced by `n`; every other node is untouched. */
  ghost predicate Grafted(t: Tree, u: Tree, n: Tree)
  {
    match t
    case Nil => u == n
    case Node(o, l, r) =>
      u.Node? && u.owner == o &&
      ((Grafted(l, u.left, n) && u.right == r) || (u.left == l && Grafted(r, u.right, n)))
  }

  /**
   * `insert_owner_bst`: walk down, going left when the node's key is strictly
   * greater than the new key and right otherwise, and hang the new node on the
   * first empty link. The root must exist (the caller handles the empty registry).
   */
  function Insert(root: Tree, newNode: Tree): (r: Tree)
    requires root.Node? && newNode.Node?
    ensures r.Node? && r.owner == root.owner
    ensures Entries(r) == Entries(root) + Entries(newNode)
    decreases root
  {
    if StrLess(Key(newNode.owner), Key(root.owner)) then
      if root.left == Nil then Node(root.owner, newNode, root.right)
      else Node(root.owner, Insert(root.left, newNode), root.right)
    else
      if root.right == Nil then Node(root.owner, root.left, newNode)
      else Node(root.owner, root.left, Insert(root.right, newNode))
  }

  /** Insertion only hangs the new node on one empty link: every existing node keeps its owner and all links but that one. */
  lemma {:induction false} InsertGrafts(root: Tree, newNode: Tree)
    requires root.Node? && newNode.Node?
    ensures Grafted(root, Insert(root, newNode), newNode)
    decreases root
  {
    if StrLess(Key(newNode.owner), Key(root.owner)) {
      if root.left != Nil {
        InsertGrafts(root.left, newNode);
      }
    } else {
      if root.right != Nil {
        InsertGrafts(root.right, newNode);
      }
    }
  }

  /** A new owner whose folded name equals the root's goes into the right subtree. */
  lemma InsertTieGoesRight(root: Tree, newNode: Tree)
    requires root.Node? && newNode.Node?
    requires Key(newNode.owner) == Key(root.owner)
    ensures Insert(root, newNode).left == root.left
    ensures Grafted(root.right, Insert(root, newNode).right, newNode)
  {
    StrLessIrreflexive(Key(root.owner));
    InsertGrafts(root, newNode);
  }

  /** Inserting a fresh node keeps the search-tree invariant. */
  lemma {:induction false} InsertPreservesBst(root: Tree, newNode: Tree)
    requires root.Node? && newNode.Node? && newNode.left == Nil && newNode.right == Nil
    requires IsBst(root)
    ensures IsBst(Insert(root, newNode))
    decreases root
  {
    var o, n := root.owner, newNode.owner;
    assert Entries(newNode) == multiset{n};
    if StrLess(Key(n), Key(o)) {
      var l' := if root.left == Nil then newNode else Insert(root.left, newNode);
      if root.left != Nil {
        InsertPreservesBst(root.left, newNode);
      }
      assert Entries(l') == Entries(root.left) + multiset{n};
      assert Insert(root, newNode) == Node(o, l', root.right);
    } else {
      var r' := if root.right == Nil then newNode else Insert(root.right, newNode);
      if root.right != Nil {
        InsertPreservesBst(root.right, newNode);
      }
      assert Entries(r') == Entries(root.right) + multiset{n};
      assert Insert(root, newNode) == Node(o, root.left, r');
    }
  }

  /**
   * `find_owner_bst`: the node whose folded name equals the query, or None.
   * The last `None` is Python's fall-through when neither comparison holds,
   * which the total string order makes unreachable.
   */
  function Find(root: Tree, name: string): (r: Option<Tree>)
    ensures root == Nil ==> r == None
    ensures r.Some? ==> r.value.Node? && Key(r.value.owner) == Lower(name) && r.value.owner in Entries(root)
    decreases root
  {
    if root == Nil then None
    else if Key(root.owner) == Lower(name) then Some(root)
    else if StrLess(Lower(name), Key(root.owner)) then Find(root.left, name)
    else if StrLess(Key(root.owner), Lower(name)) then Find(root.right, name)
    else None
  }

  /** On a search tree, lookup succeeds exactly when some owner has the query's folded name. */
  lemma {:induction false} FindComplete(t: Tree, name: string)
    requires IsBst(t)
    ensures Find(t, name).Some? <==> HasKey(Entries(t), Lower(name))
    decreases t
  {
    if t.Node? {
      var q := Lower(name);
      if Key(t.owner) != q {
        StrLessTotal(q, Key(t.owner));
        if StrLess(q, Key(t.owner)) {
          FindComplete(t.left, name);
        } else {
          FindComplete(t.right, name);
        }
      }
    }
  }

  /** With unique keys, lookup returns the one owner carrying the query's folded name. */
  lemma FindReturnsTheOwner(t: Tree, name: string, x: Owner)
    requires IsBst(t) && UniqueKeys(Entries(t))
    requires x in Entries(t) && Key(x) == Lower(name)
    ensures Find(t, name).Some? && Find(t, name).value.owner == x
  {
    FindComplete(t, name);
  }

  /** Two search trees whose records differ by one added owner agree on lookups except for that owner's name. */
  lemma FindAfterAdding(t: Tree, u: Tree, n: Owner, name: string)
    requires IsBst(t) && IsBst(u)
    requires Entries(u) == Entries(t) + multiset{n}
    ensures Find(u, name).Some? <==> Find(t, name).Some? || Key(n) == Lower(name)
  {
    var q := Lower(name);
    FindComplete(t, name);
    FindComplete(u, name);
    if HasKey(Entries(u), q) {
      var x :| x in Entries(u) && Key(x) == q;
      assert x == n || x in Entries(t);
    }
    if HasKey(Entries(t), q) {
      var x :| x in Entries(t) && Key(x) == q;
      assert x in Entries(u);
    }
    if Key(n) == q {
      assert n in Entries(u);
    }
  }

  /**
   * Insert-then-find: after inserting a fresh node into a search tree, a name is
   * found exactly when it was found before or it folds to the new owner's name.
   */
  lemma InsertThenFind(root: Tree, newNode: Tree, name: string)
    requires root.Node? && newNode.Node? && newNode.left == Nil && newNode.right == Nil
    requires IsBst(root)
    ensures Find(Insert(root, newNode), name).Some? <==>
      Find(root, name).Some? || Key(newNode.owner) == Lower(name)
  {
    var u := Insert(root, newNode);
    InsertPreservesBst(root, newNode);
    assert Entries(newNode) == multiset{newNode.owner};
    FindAfterAdding(root, u, newNode.owner, name);
  }

  /** Inserting an owner whose name is not yet found keeps the folded names unique. */
  lemma InsertKeepsKeysUnique(root: Tree, newNode: Tree)
    requires root.Node? && newNode.Node? && newNode.left == Nil && newNode.right == Nil
    requires IsBst(root) && UniqueKeys(Entries(root))
    requires Find(root, newNode.owner.name).None?
    ensures UniqueKeys(Entries(Insert(root, newNode)))
  {
    FindComplete(root, newNode.owner.name);
    assert Entries(newNode) == multiset{newNode.owner};
  }

  /** The leftmost owner of a non-empty tree: the `cur` the successor walk stops at. */
  function Leftmost(t: Tree): (o: Owner)
    requires t.Node?
    ensures o in Entries(t)
  {
    if t.left == Nil then t.owner else Leftmost(t.left)
  }

  /** On a search tree the leftmost owner has the smallest key. */
  lemma {:induction false} LeftmostIsMinimum(t: Tree)
    requires t.Node? && IsBst(t)
    ensures forall x | x in Entries(t) :: !StrLess(Key(x), Key(Leftmost(t)))
  {
    var m := Leftmost(t);
    if t.left == Nil {
      StrLessIrreflexive(Key(t.owner));
    } else {
      LeftmostIsMinimum(t.left);
      assert StrLess(Key(m), Key(t.owner));
      forall x | x in Entries(t)
        ensures !StrLess(Key(x), Key(m))
      {
        if x == t.owner {
          StrLessAsymmetric(Key(m), Key(t.owner));
        } else if x in Entries(t.right) && StrLess(Key(x), Key(m)) {
          StrLessTransitive(Key(x), Key(m), Key(t.owner));
        }
      }
    }
  }

  /** The splice that detaches the leftmost node by linking its parent to its right child. */
  function RemoveLeftmost(t: Tree): (r: Tree)
    requires t.Node?
    ensures |Entries(r)| + 1 == |Entries(t)|
    ensures Entries(r) <= Entries(t)
  {
    if t.left == Nil then t.right else Node(t.owner, RemoveLeftmost(t.left), t.right)
  }

  /** The splice loses exactly the leftmost record. */
  lemma {:induction false} RemoveLeftmostEntries(t: Tree)
    requires t.Node?
    ensures Entries(RemoveLeftmost(t)) == Entries(t) - multiset{Leftmost(t)}
  {
    if t.left != Nil {
      var m := Leftmost(t.left);
      RemoveLeftmostEntries(t.left);
      RemoveFromLeft(Entries(t.left), multiset{t.owner}, m);
      RemoveFromLeft(Entries(t.left) + multiset{t.owner}, Entries(t.right), m);
    }
  }

  lemma {:induction false} RemoveLeftmostPreservesBst(t: Tree)
    requires t.Node? && IsBst(t)
    ensures IsBst(RemoveLeftmost(t))
  {
    if t.left != Nil {
      RemoveLeftmostPreservesBst(t.left);
      RemoveLeftmostEntries(t.left);
    }
  }

  /**
   * `remove_owner_bst` on the matched node: with a missing child the other child
   * replaces it; with two children the node takes the name and pokedex of the
   * leftmost node of its right subtree, and that node is spliced out.
   */
  function Remove(root: Tree): (r: Tree)
    requires root.Node?
    ensures root.left == Nil ==> r == root.right
    ensures root.right == Nil ==> r == root.left
    ensures Entries(r) == Entries(root) - multiset{root.owner}
  {
    if root.left == Nil then root.right
    else if root.right == Nil then root.left
    else
      RemoveLeftmostEntries(root.right);
      Promote(Entries(root.left), root.owner, Entries(root.right), Leftmost(root.right));
      Node(Leftmost(root.right), root.left, RemoveLeftmost(root.right))
  }

  lemma RemovePreservesBst(root: Tree)
    requires root.Node? && IsBst(root)
    ensures IsBst(Remove(root))
  {
    if root.left != Nil && root.right != Nil {
      var m := Leftmost(root.right);
      LeftmostIsMinimum(root.right);
      RemoveLeftmostPreservesBst(root.right);
      RemoveLeftmostEntries(root.right);
      assert !StrLess(Key(m), Key(root.owner));
      forall x | x in Entries(root.left)
        ensures StrLess(Key(x), Key(m))
      {
        StrLessBelowNotLess(Key(x), Key(root.owner), Key(m));
      }
    }
  }

  /**
   * `remove_owner_bst` as the program runs it: the `cur`/`prev` walk down the
   * left spine of the right subtree, then the copy of `cur`'s record and the
   * splice through `prev` (or through the node's own right link when `prev`
   * stayed empty).
   */
  method RemoveOwner(root: Tree) returns (r: Tree)
    requires root.Node?
    ensures r == Remove(root)
  {
    if root.left == Nil {
      return root.right;
    }
    if root.right == Nil {
      return root.left;
    }
    var cur := root.right;
    var prev: Option<Tree> := None;
    while cur.left != Nil
      invariant cur.Node?
      invariant Leftmost(cur) == Leftmost(root.right)
      invariant prev.None? ==> cur == root.right
      decreases cur
    {
      prev := Some(cur);
      cur := cur.left;
    }
    if prev.None? {
      r := Node(cur.owner, root.left, cur.right);
    } else {
      r := Node(cur.owner, root.left, RemoveLeftmost(root.right));
    }
  }

  /**
   * `delete_owner_bst_by_name`: follow the lookup path, re-threading the child
   * link on the way back, and remove the matched node. The name must be present
   * (the caller looks it up first), which is also what keeps the walk off empty links.
   */
  function Delete(root: Tree, name: string): (r: Tree)
    requires Find(root, name).Some?
    ensures Entries(r) == Entries(root) - multiset{Find(root, name).value.owner}
    decreases root
  {
    StrLessIrreflexive(Lower(name));
    if StrLess(Lower(name), Key(root.owner)) then
      var gone := Find(root.left, name).value.owner;
      RemoveFromLeft(Entries(root.left), multiset{root.owner}, gone);
      RemoveFromLeft(Entries(root.left) + multiset{root.owner}, Entries(root.right), gone);
      Node(root.owner, Delete(root.left, name), root.right)
    else if StrLess(Key(root.owner), Lower(name)) then
      var gone := Find(root.right, name).value.owner;
      RemoveFromRight(Entries(root.left) + multiset{root.owner}, Entries(root.right), gone);
      Node(root.owner, root.left, Delete(root.right, name))
    else
      Remove(root)
  }

  lemma {:induction false} DeletePreservesBst(root: Tree, name: string)
    requires IsBst(root) && Find(root, name).Some?
    ensures IsBst(Delete(root, name))
    decreases root
  {
    StrLessIrreflexive(Lower(name));
    if StrLess(Lower(name), Key(root.owner)) {
      DeletePreservesBst(root.left, name);
      RemoveShrinks(Entries(root.left), Find(root.left, name).value.owner);
    } else if StrLess(Key(root.owner), Lower(name)) {
      DeletePreservesBst(root.right, name);
      RemoveShrinks(Entries(root.right), Find(root.right, name).value.owner);
    } else {
      RemovePreservesBst(root);
    }
  }

  /** On a registry with unique folded names, a deleted name can no longer be found. */
  lemma DeleteForgetsName(t: Tree, name: string)
    requires IsBst(t) && UniqueKeys(Entries(t)) && Find(t, name).Some?
    ensures Find(Delete(t, name), name).None?
  {
    var d := Delete(t, name);
    DeletePreservesBst(t, name);
    FindComplete(d, name);
  }

  /**
   * On a registry with unique folded names, deleting one name leaves every other
   * owner findable with the same record, and finds nothing new.
   */
  lemma DeleteKeepsOthers(t: Tree, name: string, other: string)
    requires IsBst(t) && UniqueKeys(Entries(t)) && Find(t, name).Some?
    requires Lower(other) != Lower(name)
    ensures Find(Delete(t, name), other).Some? <==> Find(t, other).Some?
    ensures Find(t, other).Some? ==> Find(Delete(t, name), other).value.owner == Find(t, other).value.owner
  {
    var d := Delete(t, name);
    var gone := Find(t, name).value.owner;
    DeletePreservesBst(t, name);
    FindComplete(t, other);
    FindComplete(d, other);
    if Find(t, other).Some? {
      var x := Find(t, other).value.owner;
      assert Key(x) != Key(gone);
      assert x in Entries(d);
      var y := Find(d, other).value.owner;
      assert y in Entries(t) && Key(y) == Key(x);
    }
    if Find(d, other).Some? {
      assert Find(d, other).value.owner in Entries(t);
    }
  }

  /** Deleting the only owner leaves the registry empty, where the name is no longer found. */
  lemma DeleteOnlyOwner(o: Owner, name: string)
    requires Lower(name) == Key(o)
    ensures Find(Node(o, Nil, Nil), name).Some?
    ensures Delete(Node(o, Nil, Nil), name) == Nil
    ensures Find(Delete(Node(o, Nil, Nil), name), name) == None
  {
    StrLessIrreflexive(Key(o));
  }
}

=== FILE: registry.dfy ===
/**
 * The program's single registry, the global `ownerRoot`, with the guarded
 * updates the menus make to it: a new pokedex is only opened for a name that
 * is not found, a pokedex is only deleted for a name that is found, and the
 * sort replaces the whole tree by its rebuilt copy.
 */
module Registry {
  import opened Names
  import opened Catalog
  import opened OwnerBst
  import opened Traversals
  import opened SortOwners

  class OwnerRegistry {
    /** `ownerRoot`: `Nil` while no owner exists. */
    var root: Tree

    /** A search tree in which no two owners share a folded name. */
    ghost predicate Valid()
      reads this
    {
      IsBst(root) && UniqueKeys(Entries(root))
    }

    /** The program starts with no owners. */
    constructor()
      ensures root == Nil && Valid()
    {
      root := Nil;
    }

    /**
     * Opening a pokedex once the name is known to be new: the fresh node
     * becomes the root of an empty registry and is inserted otherwise.
     */
    method OpenPokedex(name: string, pokedex: seq<Pokemon>)
      requires Valid() && Find(root, name).None?
      modifies this
      ensures Valid()
      ensures Entries(root) == old(Entries(root)) + multiset{Owner(name, pokedex)}
      ensures Find(root, name).Some? && Find(root, name).value.owner == Owner(name, pokedex)
      ensures root == if old(root) == Nil then CreateOwnerNode(name, pokedex)
                      else Insert(old(root), CreateOwnerNode(name, pokedex))
    {
      var owner := CreateOwnerNode(name, pokedex);
      if root == Nil {
        root := owner;
      } else {
        InsertPreservesBst(root, owner);
        InsertKeepsKeysUnique(root, owner);
        root := Insert(root, owner);
      }
      FindReturnsTheOwner(root, name, Owner(name, pokedex));
    }

    /** Deleting a pokedex once the name is known to be present: that owner is gone, everyone else stays. */
    method DeletePokedex(name: string)
      requires Valid() && Find(root, name).Some?
      modifies this
      ensures Valid()
      ensures Entries(root) == old(Entries(root)) - multiset{old(Find(root, name)).value.owner}
      ensures Find(root, name).None?
      ensures root == Delete(old(root), name)
    {
      DeletePreservesBst(root, name);
      DeleteForgetsName(root, name);
      ghost var before := Entries(root);
      root := Delete(root, name);
      assert Entries(root) <= before;
    }

    /** The sort: an empty registry is left alone, otherwise the root becomes the rebuilt tree. */
    method SortOwners() returns (order: seq<Owner>)
      requires Valid()
      modifies this
      ensures Valid()
      ensures Entries(root) == old(Entries(root)) && multiset(order) == Entries(root)
      ensures SortedBySize(order)
      ensures old(root) == Nil ==> root == Nil
      ensures old(root) != Nil ==> root.Node? && root.owner == order[0]
      ensures old(root) != Nil ==> root == BuildPrefix(order, |order|)
    {
      var newRoot;
      newRoot, order := SortOwnersByNumPokemon(root);
      root := newRoot;
    }
  }
}

=== FILE: sort_owners.dfy ===
/**
 * "Sort owners by number of Pokemon": copy every owner into a fresh child-less
 * node, bubble-sort the copies by (pokedex size, lower-cased name), make the
 * first one the new root and insert the others in sorted order.
 */
module SortOwners {
  import opened Names
  import opened Catalog
  import opened OwnerBst
  import opened Traversals
  import opened Collections

  /** The bubble sort's swap test: `x` has more Pokemon than `y`, or as many and a later folded name. */
  predicate SizeGreater(x: Owner, y: Owner): (r: bool)
    ensures |x.pokedex| != |y.pokedex| ==> (r <==> |x.pokedex| > |y.pokedex|)
    ensures Key(x) == Key(y) ==> (r <==> |x.pokedex| > |y.pokedex|)
    ensures |x.pokedex| == |y.pokedex| ==> (r <==> StrLess(Key(y), Key(x)))
  {
    StrLessIrreflexive(Key(x));
    |x.pokedex| > |y.pokedex| ||
    (|x.pokedex| == |y.pokedex| && StrLess(Key(y), Key(x)))
  }

  /** Ascending by pokedex size, ties broken by ascending folded name. */
  ghost predicate SortedBySize(s: seq<Owner>)
  {
    SortedFrom(s, 0)
  }

  /** The swap test never holds both ways. */
  lemma SizeGreaterAsymmetric(x: Owner, y: Owner)
    requires SizeGreater(x, y)
    ensures !SizeGreater(y, x)
  {
    if |x.pokedex| == |y.pokedex| {
      StrLessAsymmetric(Key(y), Key(x));
    }
  }

  /** "Not greater" is transitive, so adjacent order gives order everywhere. */
  lemma NotSizeGreaterTransitive(x: Owner, y: Owner, z: Owner)
    requires !SizeGreater(x, y) && !SizeGreater(y, z)
    ensures !SizeGreater(x, z)
  {
    if |x.pokedex| == |z.pokedex| && StrLess(Key(z), Key(x)) {
      StrLessTotal(Key(x), Key(y));
      if StrLess(Key(x), Key(y)) {
        StrLessTransitive(Key(z), Key(x), Key(y));
      }
    }
  }

  /** Between owners with different folded names the swap test holds one way or the other. */
  lemma SizeGreaterTotal(x: Owner, y: Owner)
    requires Key(x) != Key(y)
    ensures SizeGreater(x, y) || SizeGreater(y, x)
  {
    StrLessTotal(Key(x), Key(y));
  }

  /** Two sorted arrangements of the same records with unique folded names start with the same record. */
  lemma SortedHeadsAgree(s: seq<Owner>, t: seq<Owner>)
    requires 0 < |s| && 0 < |t|
    requires SortedBySize(s) && SortedBySize(t)
    requires multiset(s) == multiset(t) && UniqueKeys(multiset(s))
    ensures s[0] == t[0]
  {
    assert s[0] in multiset(t) && t[0] in multiset(s);
    var k :| 0 <= k < |t| && t[k] == s[0];
    var m :| 0 <= m < |s| && s[m] == t[0];
    if s[0] != t[0] {
      assert Key(s[0]) != Key(t[0]);
      SizeGreaterTotal(s[0], t[0]);
      assert false;
    }
  }

  /** Taking one record out keeps the folded names unique. */
  lemma UniqueKeysShrink(m: multiset<Owner>, a: Owner)
    requires UniqueKeys(m)
    ensures UniqueKeys(m - multiset{a})
  {
    forall x, y | x in m - multiset{a} && y in m - multiset{a} && Key(x) == Key(y)
      ensures x == y && (m - multiset{a})[x] == 1
    {
      assert x in m && y in m;
    }
  }

  /**
   * With unique folded names there is only one way to arrange a set of records
   * in (pokedex size, folded name) order, so the sort's result does not depend
   * on the order the records were gathered in.
   */
  lemma {:induction false} SortedPermutationUnique(s: seq<Owner>, t: seq<Owner>)
    requires SortedBySize(s) && SortedBySize(t)
    requires multiset(s) == multiset(t) && UniqueKeys(multiset(s))
    ensures s == t
    decreases |s|
  {
    if |s| == 0 {
      assert |multiset(t)| == 0;
    } else {
      assert |t| == |multiset(t)|;
      SortedHeadsAgree(s, t);
      HeadAndTail(s);
      HeadAndTail(t);
      UniqueKeysShrink(multiset(s), s[0]);
      SortedPermutationUnique(s[1..], t[1..]);
    }
  }

  /**
   * `gather_all_owners`: append a copy of every owner, node first, then the
   * left subtree, then the right one. The copies are the records only: the
   * rebuilt tree starts from child-less nodes.
   */
  method GatherAllOwners(root: Tree, arr: seq<Owner>) returns (out: seq<Owner>)
    ensures out == arr + PreOrder(root)
    ensures multiset(out) == multiset(arr) + Entries(root)
    decreases root
  {
    out := arr;
    if root == Nil {
      return;
    }
    out := out + [root.owner];
    out := GatherAllOwners(root.left, out);
    out := GatherAllOwners(root.right, out);
    Regroup(arr + [root.owner], PreOrder(root.left), PreOrder(root.right));
    Regroup(arr, [root.owner], PreOrder(root.left));
    Regroup(arr, [root.owner] + PreOrder(root.left), PreOrder(root.right));
    PreOrderVisitsAll(root);
  }

  /** From position `m` on, `s` is in order; from 0 on, the whole sequence is sorted by size. */
  ghost predicate SortedFrom(s: seq<Owner>, m: int)
  {
    forall p, q | 0 <= m <= p < q < |s| :: !SizeGreater(s[p], s[q])
  }

  /** Nothing before position `m` is greater than anything from `m` on. */
  ghost predicate PartitionedAt(s: seq<Owner>, m: int)
  {
    forall p, q | 0 <= p < m <= q < |s| :: !SizeGreater(s[p], s[q])
  }

  /** Nothing before position `j` is greater than `s[j]`. */
  ghost predicate LargestAt(s: seq<Owner>, j: int)
    requires 0 <= j < |s|
  {
    forall p | 0 <= p < j :: !SizeGreater(s[p], s[j])
  }

  /** Swapping two neighbours that are out of order, both before `m`, keeps the sorted tail and the partition, and moves the larger one right. */
  lemma SwapStep(s: seq<Owner>, j: int, m: int)
    requires 0 <= j && j + 1 < m <= |s|
    requires SortedFrom(s, m) && PartitionedAt(s, m) && LargestAt(s, j) && SizeGreater(s[j], s[j + 1])
    ensures SortedFrom(s[j := s[j + 1]][j + 1 := s[j]], m)
    ensures PartitionedAt(s[j := s[j + 1]][j + 1 := s[j]], m)
    ensures LargestAt(s[j := s[j + 1]][j + 1 := s[j]], j + 1)
    ensures multiset(s[j := s[j + 1]][j + 1 := s[j]]) == multiset(s)
  {
    SizeGreaterAsymmetric(s[j], s[j + 1]);
  }

  /** Leaving two neighbours that are in order moves the running maximum one step right. */
  lemma KeepStep(s: seq<Owner>, j: int)
    requires 0 <= j && j + 1 < |s|
    requires LargestAt(s, j) && !SizeGreater(s[j], s[j + 1])
    ensures LargestAt(s, j + 1)
  {
    forall p | 0 <= p < j + 1
      ensures !SizeGreater(s[p], s[j + 1])
    {
      if p < j {
        NotSizeGreaterTransitive(s[p], s[j], s[j + 1]);
      }
    }
  }

  /** After a pass up to `m - 1` the maximum of the prefix joins the sorted tail. */
  lemma PassDone(s: seq<Owner>, m: int)
    requires 0 < m <= |s|
    requires SortedFrom(s, m) && PartitionedAt(s, m) && LargestAt(s, m - 1)
    ensures SortedFrom(s, m - 1) && PartitionedAt(s, m - 1)
  {
  }

  /**
   * One pass of the inner loop: compare neighbours up to position `m - 1` and
   * swap them when the left one is greater. The largest record of the unsorted
   * prefix ends at `m - 1`, joining the sorted tail.
   */
  method BubblePass(a: array<Owner>, m: int)
    requires 0 < m <= a.Length
    requires SortedFrom(a[..], m) && PartitionedAt(a[..], m)
    modifies a
    ensures multiset(a[..]) == old(multiset(a[..]))
    ensures SortedFrom(a[..], m - 1) && PartitionedAt(a[..], m - 1)
  {
    var j := 0;
    while j < m - 1
      invariant 0 <= j <= m - 1
      invariant multiset(a[..]) == old(multiset(a[..]))
      invariant SortedFrom(a[..], m) && PartitionedAt(a[..], m)
      invariant LargestAt(a[..], j)
    {
      if SizeGreater(a[j], a[j + 1]) {
        SwapStep(a[..], j, m);
        a[j], a[j + 1] := a[j + 1], a[j];
      } else {
        KeepStep(a[..], j);
      }
      j := j + 1;
    }
    PassDone(a[..], m);
  }

  /**
   * The nested-loop bubble sort of `sort_owners_by_num_pokemon`: pass `i`
   * runs the inner loop up to position `n - i - 1`, so after it the last
   * `i + 1` places hold the largest records in order.
   */
  method BubbleSort(a: array<Owner>)
    modifies a
    ensures SortedBySize(a[..])
    ensures multiset(a[..]) == old(multiset(a[..]))
  {
    var n := a.Length;
    var i := 0;
    while i < n - 1
      invariant 0 <= i && (n > 0 ==> i <= n - 1) && (n == 0 ==> i == 0)
      invariant multiset(a[..]) == old(multiset(a[..]))
      invariant SortedFrom(a[..], n - i) && PartitionedAt(a[..], n - i)
    {
      BubblePass(a, n - i);
      i := i + 1;
    }
  }

  /** The tree the rebuild holds once the first `i` sorted records are in: `arr[0]` as the root, then each later one inserted in turn. */
  function BuildPrefix(arr: seq<Owner>, i: int): (t: Tree)
    requires 0 < i <= |arr|
    ensures t.Node? && t.owner == arr[0]
  {
    if i == 1 then CreateOwnerNode(arr[0].name, arr[0].pokedex)
    else Insert(BuildPrefix(arr, i - 1), CreateOwnerNode(arr[i - 1].name, arr[i - 1].pokedex))
  }

  /** Every prefix build is a search tree. */
  lemma {:induction false} BuildPrefixIsBst(arr: seq<Owner>, i: int)
    requires 0 < i <= |arr|
    ensures IsBst(BuildPrefix(arr, i))
  {
    if i > 1 {
      BuildPrefixIsBst(arr, i - 1);
      InsertPreservesBst(BuildPrefix(arr, i - 1), CreateOwnerNode(arr[i - 1].name, arr[i - 1].pokedex));
    }
  }

  /** Every prefix build holds exactly the first `i` records. */
  lemma {:induction false} BuildPrefixEntries(arr: seq<Owner>, i: int)
    requires 0 < i <= |arr|
    ensures Entries(BuildPrefix(arr, i)) == multiset(arr[..i])
  {
    if i == 1 {
      assert arr[..1] == [arr[0]];
    } else {
      assert arr[..i] == arr[..i - 1] + [arr[i - 1]];
      BuildPrefixEntries(arr, i - 1);
    }
  }

  /**
   * The rebuild: the first sorted record becomes the root and every later one
   * is inserted, in order, as a fresh child-less node.
   */
  method RebuildBySortedOrder(arr: seq<Owner>) returns (root: Tree)
    requires |arr| > 0
    ensures root == BuildPrefix(arr, |arr|)
    ensures root.owner == arr[0] && IsBst(root) && Entries(root) == multiset(arr)
  {
    root := CreateOwnerNode(arr[0].name, arr[0].pokedex);
    for i := 0 to |arr|
      invariant root == BuildPrefix(arr, if i == 0 then 1 else i)
    {
      if i != 0 {
        root := Insert(root, CreateOwnerNode(arr[i].name, arr[i].pokedex));
      }
    }
    BuildPrefixIsBst(arr, |arr|);
    BuildPrefixEntries(arr, |arr|);
    TakeAll(arr);
  }

  /**
   * `sort_owners_by_num_pokemon` on the registry root: nothing to do on an empty
   * registry; otherwise the new root and the order the program reports.
   */
  method SortOwnersByNumPokemon(root: Tree) returns (newRoot: Tree, order: seq<Owner>)
    ensures root == Nil ==> newRoot == Nil && order == []
    ensures root != Nil ==>
      multiset(order) == Entries(root) && SortedBySize(order) &&
      newRoot.Node? && newRoot.owner == order[0] &&
      IsBst(newRoot) && Entries(newRoot) == Entries(root) &&
      newRoot == BuildPrefix(order, |order|)
  {
    if root == Nil {
      return Nil, [];
    }
    var gathered := GatherAllOwners(root, []);
    var arr := new Owner[|gathered|](k requires 0 <= k < |gathered| => gathered[k]);
    assert arr[..] == gathered;
    BubbleSort(arr);
    order := arr[..];
    assert root.owner in Entries(root);
    newRoot := RebuildBySortedOrder(order);
  }
}

=== FILE: traversals.dfy ===
/**
 * The four ways of listing the registry. Each Python traversal prints every
 * owner it visits; here the output is the sequence of visited owner records.
 */
module Traversals {
  import opened Wrappers
  import opened Names
  import opened OwnerBst
  import opened Collections

  /** `pre_order`: node, then left subtree, then right subtree; nothing on an empty tree. */
  function PreOrder(t: Tree): (r: seq<Owner>)
    ensures |r| == |Entries(t)|
    ensures t.Node? ==> r[0] == t.owner
  {
    match t
    case Nil => []
    case Node(o, l, r) => [o] + PreOrder(l) + PreOrder(r)
  }

  /** `in_order`: left subtree, then node, then right subtree. */
  function InOrder(t: Tree): (r: seq<Owner>)
    ensures |r| == |Entries(t)|
    ensures t.Node? ==> r[0] == Leftmost(t)
  {
    match t
    case Nil => []
    case Node(o, l, r) => InOrder(l) + [o] + InOrder(r)
  }

  /** `post_order`: left subtree, then right subtree, then node. */
  function PostOrder(t: Tree): (r: seq<Owner>)
    ensures |r| == |Entries(t)|
    ensures t.Node? ==> r[|r| - 1] == t.owner
  {
    match t
    case Nil => []
    case Node(o, l, r) => PostOrder(l) + PostOrder(r) + [o]
  }

  /** Pre-order visits every node exactly once. */
  lemma {:induction false} PreOrderVisitsAll(t: Tree)
    ensures multiset(PreOrder(t)) == Entries(t)
  {
    if t.Node? {
      PreOrderVisitsAll(t.left);
      PreOrderVisitsAll(t.right);
    }
  }

  /** In-order visits every node exactly once. */
  lemma {:induction false} InOrderVisitsAll(t: Tree)
    ensures multiset(InOrder(t)) == Entries(t)
  {
    if t.Node? {
      InOrderVisitsAll(t.left);
      InOrderVisitsAll(t.right);
    }
  }

  /** Post-order visits every node exactly once. */
  lemma {:induction false} PostOrderVisitsAll(t: Tree)
    ensures multiset(PostOrder(t)) == Entries(t)
  {
    if t.Node? {
      PostOrderVisitsAll(t.left);
      PostOrderVisitsAll(t.right);
    }
  }

  /** Folded names never decrease along `s`. */
  ghost predicate KeysNonDecreasing(s: seq<Owner>)
  {
    forall i, j | 0 <= i < j < |s| :: !StrLess(Key(s[j]), Key(s[i]))
  }

  /** Joining two sorted listings around a pivot that separates them keeps the order. */
  lemma SortedAroundPivot(a: seq<Owner>, o: Owner, b: seq<Owner>)
    requires KeysNonDecreasing(a) && KeysNonDecreasing(b)
    requires forall x | x in multiset(a) :: StrLess(Key(x), Key(o))
    requires forall x | x in multiset(b) :: !StrLess(Key(x), Key(o))
    ensures KeysNonDecreasing(a + [o] + b)
  {
    var s := a + [o] + b;
    forall i, j | 0 <= i < j < |s|
      ensures !StrLess(Key(s[j]), Key(s[i]))
    {
      if i < |a| {
        assert a[i] in multiset(a);
        StrLessIrreflexive(Key(o));
        if j == |a| {
          StrLessAsymmetric(Key(s[i]), Key(o));
        } else if j > |a| {
          assert b[j - |a| - 1] in multiset(b);
          if StrLess(Key(s[j]), Key(s[i])) {
            StrLessTransitive(Key(s[j]), Key(s[i]), Key(o));
          }
        }
      } else if i == |a| {
        assert b[j - |a| - 1] in multiset(b);
      }
    }
  }

  /** On a search tree the in-order listing is in non-decreasing folded-name order. */
  lemma {:induction false} InOrderSorted(t: Tree)
    requires IsBst(t)
    ensures KeysNonDecreasing(InOrder(t))
  {
    if t.Node? {
      InOrderSorted(t.left);
      InOrderSorted(t.right);
      InOrderVisitsAll(t.left);
      InOrderVisitsAll(t.right);
      SortedAroundPivot(InOrder(t.left), t.owner, InOrder(t.right));
    }
  }

  /** The leftmost owner is the first one listed in order. */
  lemma {:induction false} LeftmostIsFirstInOrder(t: Tree)
    requires t.Node?
    ensures |InOrder(t)| > 0 && InOrder(t)[0] == Leftmost(t)
  {
    assert InOrder(t) == InOrder(t.left) + [t.owner] + InOrder(t.right);
    if t.left != Nil {
      LeftmostIsFirstInOrder(t.left);
    }
  }

  /** Splicing out the leftmost node drops exactly the first owner of the in-order listing. */
  lemma {:induction false} RemoveLeftmostInOrder(t: Tree)
    requires t.Node?
    ensures InOrder(t) == [Leftmost(t)] + InOrder(RemoveLeftmost(t))
  {
    var o, l, r := t.owner, t.left, t.right;
    if l == Nil {
      DropEmpty([o] + InOrder(r));
    } else {
      var m, rest, c := Leftmost(l), InOrder(RemoveLeftmost(l)), InOrder(r);
      RemoveLeftmostInOrder(l);
      Regroup([m], rest, [o] + c);
      Regroup(rest, [o], c);
      Regroup([m] + rest, [o], c);
      assert RemoveLeftmost(t) == Node(o, RemoveLeftmost(l), r);
    }
  }

  /**
   * Removing a node leaves the in-order listing of its two subtrees, in order:
   * the node disappears from the listing and nothing else moves.
   */
  lemma RemoveInOrder(t: Tree)
    requires t.Node?
    ensures InOrder(Remove(t)) == InOrder(t.left) + InOrder(t.right)
  {
    if t.left == Nil {
      DropEmpty(InOrder(t.right));
    } else if t.right == Nil {
      DropEmpty(InOrder(t.left));
    } else {
      var m, rest := Leftmost(t.right), InOrder(RemoveLeftmost(t.right));
      RemoveLeftmostInOrder(t.right);
      Regroup(InOrder(t.left), [m], rest);
    }
  }

  /** The owner listed right after a node with a right subtree is that subtree's leftmost owner. */
  lemma InOrderSuccessor(t: Tree)
    requires t.Node? && t.right != Nil
    ensures |InOrder(t)| > |InOrder(t.left)| + 1
    ensures InOrder(t)[|InOrder(t.left)| + 1] == Leftmost(t.right)
  {
    var a, b := InOrder(t.left), InOrder(t.right);
    assert InOrder(t) == a + [t.owner] + b;
    assert |b| > 0 ==> InOrder(t)[|a| + 1] == b[0];
    LeftmostIsFirstInOrder(t.right);
  }

  /**
   * With two children, the removed node keeps its place and its left link and
   * takes the record of its in-order successor: the owner listed right after it.
   */
  lemma RemovePromotesSuccessor(t: Tree)
    requires t.Node? && t.left != Nil && t.right != Nil
    ensures Remove(t).Node? && Remove(t).left == t.left
    ensures |InOrder(t)| > |InOrder(t.left)| + 1 && Remove(t).owner == InOrder(t)[|InOrder(t.left)| + 1]
  {
    InOrderSuccessor(t);
  }

  /** The owners in a queue of subtrees, front to back. */
  function Forest(q: seq<Tree>): (m: multiset<Owner>)
    ensures q == [] ==> m == multiset{}
  {
    if q == [] then multiset{} else Entries(q[0]) + Forest(q[1..])
  }

  lemma ForestSingle(t: Tree)
    ensures Forest([t]) == Entries(t)
  {
    assert [t][1..] == [];
  }

  lemma {:induction false} ForestAppend(a: seq<Tree>, b: seq<Tree>)
    ensures Forest(a + b) == Forest(a) + Forest(b)
  {
    if a == [] {
      DropEmpty(b);
    } else {
      TailOfAppend(a, b);
      ForestAppend(a[1..], b);
      assert Forest(a + b) == Entries(a[0]) + Forest(a[1..] + b);
    }
  }

  /** The children a visited node appends to the queue: left first, empty links skipped. */
  function Children(n: Tree): (q: seq<Tree>)
    requires n.Node?
    ensures forall k | 0 <= k < |q| :: q[k].Node? && (q[k] == n.left || q[k] == n.right)
    ensures |q| == (if n.left != Nil then 1 else 0) + (if n.right != Nil then 1 else 0)
    ensures n.left != Nil ==> |q| > 0 && q[0] == n.left
    ensures n.right != Nil ==> |q| > 0 && q[|q| - 1] == n.right
  {
    (if n.left != Nil then [n.left] else []) + (if n.right != Nil then [n.right] else [])
  }

  lemma ChildrenForest(n: Tree)
    requires n.Node?
    ensures Forest(Children(n)) == Entries(n.left) + Entries(n.right)
    ensures forall k | 0 <= k < |Children(n)| :: Children(n)[k].Node?
  {
    var a := if n.left != Nil then [n.left] else [];
    var b := if n.right != Nil then [n.right] else [];
    assert Children(n) == a + b;
    ForestAppend(a, b);
    ForestSingle(n.left);
    ForestSingle(n.right);
  }

  /** The state of `bfs_traversal` between two iterations. */
  ghost predicate BfsState(root: Tree, queue: seq<Tree>, counter: int, visited: seq<Owner>)
  {
    0 <= counter <= |queue| && |queue| > 0 && queue[0] == root &&
    (forall k | 0 <= k < |queue| :: queue[k].Node?) &&
    |visited| == counter &&
    (forall k | 0 <= k < counter :: visited[k] == queue[k].owner) &&
    multiset(visited) + Forest(queue[counter..]) == Entries(root)
  }

  /** Visiting the node at the counter moves its record out of the pending queue and its children in. */
  lemma ForestStep(queue: seq<Tree>, counter: nat)
    requires counter < |queue| && queue[counter].Node?
    ensures Forest((queue + Children(queue[counter]))[counter + 1..]) + multiset{queue[counter].owner}
      == Forest(queue[counter..])
  {
    var node := queue[counter];
    var rest := queue[counter + 1..];
    assert queue[counter..][0] == node && queue[counter..][1..] == rest;
    SliceOfAppend(queue, Children(node), counter + 1);
    ForestAppend(rest, Children(node));
    ChildrenForest(node);
  }

  /** One iteration keeps the state and shrinks what is still pending. */
  lemma BfsAdvance(root: Tree, queue: seq<Tree>, counter: int, visited: seq<Owner>)
    requires BfsState(root, queue, counter, visited) && counter < |queue|
    ensures BfsState(root, queue + Children(queue[counter]), counter + 1, visited + [queue[counter].owner])
    ensures |Forest((queue + Children(queue[counter]))[counter + 1..])| < |Forest(queue[counter..])|
  {
    var node := queue[counter];
    var queue', visited' := queue + Children(node), visited + [node.owner];
    ChildrenForest(node);
    ForestStep(queue, counter);
    var pending, pending' := Forest(queue[counter..]), Forest(queue'[counter + 1..]);
    assert multiset(visited') == multiset(visited) + multiset{node.owner};
    assert multiset(visited') + pending' == multiset(visited) + pending;
    forall k | 0 <= k <= counter
      ensures visited'[k] == queue'[k].owner
    {
      if k < counter {
        assert visited'[k] == visited[k] && queue'[k] == queue[k];
      }
    }
  }

  /** The state before the first iteration: the queue holds the root alone. */
  lemma BfsStart(root: Tree)
    requires root.Node?
    ensures BfsState(root, [root], 0, [])
  {
    ForestSingle(root);
  }

  /** When the counter reaches the end of the queue every record has been visited, the root first. */
  lemma BfsDone(root: Tree, queue: seq<Tree>, visited: seq<Owner>)
    requires BfsState(root, queue, |queue|, visited)
    ensures multiset(visited) == Entries(root) && visited[0] == root.owner
  {
    assert queue[|queue|..] == [];
  }

  /**
   * `bfs_traversal`: a queue that is only appended to, and a counter that walks
   * it; each visited node appends its non-empty children. The root must exist:
   * the program reads its children before checking it.
   */
  method BfsTraversal(root: Tree) returns (visited: seq<Owner>)
    requires root.Node?
    ensures multiset(visited) == Entries(root)
    ensures visited[0] == root.owner
  {
    var queue := [root];
    var counter := 0;
    visited := [];
    BfsStart(root);
    while counter < |queue|
      invariant BfsState(root, queue, counter, visited)
      decreases |Forest(queue[counter..])|
    {
      var node := queue[counter];
      ghost var before, seen := queue, visited;
      ghost var lefts: seq<Tree> := if node.left != Nil then [node.left] else [];
      ghost var rights: seq<Tree> := if node.right != Nil then [node.right] else [];
      visited := visited + [node.owner];
      if node.left != Nil {
        queue := queue + [node.left];
      }
      if node.right != Nil {
        queue := queue + [node.right];
      }
      DropEmpty(before);
      DropEmpty(before + lefts);
      Regroup(before, lefts, rights);
      BfsAdvance(root, before, counter, seen);
      counter := counter + 1;
    }
    BfsDone(root, queue, visited);
  }

  /**
   * `bfs_traversal` as the "print all" menu calls it, on the registry root as
   * it stands: with no owners the queue starts as `[None]` and the first visit
   * dereferences it, which raises. `None` stands for that failure.
   */
  method BfsTraversalAsWritten(root: Tree) returns (r: Option<seq<Owner>>)
    ensures r.None? <==> root == Nil
    ensures r.Some? ==> multiset(r.value) == Entries(root)
  {
    if root == Nil {
      return None;
    }
    var visited := BfsTraversal(root);
    return Some(visited);
  }

  /**
   * Breadth-first listing that treats an empty registry the way the three
   * depth-first traversals do: nothing is visited.
   */
  method PrintAllBfs(root: Tree) returns (visited: seq<Owner>)
    ensures multiset(visited) == Entries(root)
    ensures root == Nil ==> visited == []
  {
    if root == Nil {
      return [];
    }
    visited := BfsTraversal(root);
  }
}

=== FILE: wrappers.dfy ===
/** The absent-or-present value that the program expresses with Python's `None`. */
module Wrappers {
  datatype Option<+T> = None | Some(value: T)
}
